=== FILE: README.md ===
# Role-based task panel: verified model of its client-side state logic

This project models, in Dafny, the sequential logic under the React glue of a
small role-based admin front-end: the session store, the access guard that
wraps every dashboard page, the sidebar's role-to-navigation choice and its
`classNames` helper, the admin's user table (status toggle, role change), the
manager's permissions matrix (single-flag flip) and the user's task table
(completion and soft-delete toggles, per-row editing, the new-task form).

Remote calls are not performed: each is a parameter giving its outcome
(`Response<T>` for a fetch, `patchOk: bool` for a PATCH), and every PATCH a
handler issues is returned as a value (`UserPatch`, `TaskPatch`), so a
contract can say both what was sent and what the local state became.

Layout, one module per file:

- `wrappers.dfy` (`Wrappers`): `Option`, and `Response` for a fetch's outcome.
- `lists.dfy` (`Lists`): `map`, `filter`, and `find` on arrays (through a first-index helper), specified element by element.
- `js_string.dfy` (`JsString`): `trim` with the ECMAScript whitespace set, `join`, and `split(' ')`.
- `entities.dfy` (`Entities`): users, tasks, permission records, user PATCH bodies; roles and statuses stay strings.
- `user_store.dfy` (`UserStore`): the session store as a class with its two fields, and its transitions as values.
- `routes.dfy` (`Routes`): the routes, and in `Routes.PageRoles` the roles each dashboard page passes
  to the guard: all three for the dashboard (`app/(auth)/dashboard/page.tsx`, line 201), `user` for
  tasks, `admin` for manage and `manager` for permission (line 10 of each page file).
  `Routes.DashboardAdmitsPageRoles` shows the dashboard admits every role any page admits, and
  `Routes.OnePagePerRole` that each role has exactly one page beneath the dashboard, admitting it alone.
- `with_auth.dfy` (`WithAuth`): the guard's redirect-and-render decision.
- `side_bar.dfy` (`SideBar`): navigation lists, `classNames`, active-link styling.
- `user_table.dfy`, `permissions_table.dfy`, `task_table.dfy`: the three tables, each a class whose methods are the handlers.

Notes on the source as written, which the model follows:

- The completion toggle is gated on the `add` flag, not on `update`
  (components/table/TaskTable.tsx:85). `TaskTable.TaskTable.ToggleTaskCompletion`
  keeps that gate: a user with `update` but without `add` is refused.
- `addNewTask` appends the task locally and sends no create request; the id
  comes from the clock (here the `newId` parameter) and the owner is the
  session store's user, not the loaded one.
- The user table writes to the API first and updates its list only after the
  write succeeds; the task table updates its list first and never rolls back.
- In `saveEditing`, a failed PATCH throws past `setEditingTask(null)`, so the
  row stays in edit mode while the list already shows the new text.
- `changeRole` sends its PATCH without checking that the id is listed.
- The guard admits a state that is authenticated but holds no user
  (`WithAuth.AuthenticatedWithoutUserRenders`); the store's invariant rules
  that state out (`WithAuth.RendersOnlyAllowedRoles`).
- No hard delete and no task create call exist in the task table; neither is modelled.

## Model

| member | source | states |
|---|---|---|
| `UserStore.Step` | store/userStore.ts:27-28 | `setUser(u)` leaves `user = u` and authenticated; `logout` leaves the initial state; both leave the store consistent |
| `UserStore.RunKeepsConsistent` | store/userStore.ts:24-28 | from a consistent state, every series of `setUser`/`logout` calls keeps `isAuthenticated <==> user != null` |
| `UserStore.RunEndsWithLast` | store/userStore.ts:27-28 | since each mutator overwrites both fields, a series of calls ends in the state its last call sets |
| `UserStore.LogoutIdempotent` | store/userStore.ts:27-28 | `logout` twice equals `logout` once; `setUser` then `logout` returns to the initial state |
| `UserStore.AuthStore.constructor` | store/userStore.ts:24-26 | the store starts with no user and not authenticated |
| `UserStore.AuthStore.SetUser` | store/userStore.ts:27 | after `setUser(u)` the store holds `u`, is authenticated and consistent |
| `UserStore.AuthStore.Logout` | store/userStore.ts:28 | after `logout` the store is in its initial state, whatever it held |
| `WithAuth.Guard` | components/hoc/withAuth.tsx:15-29 | `/login` is pushed exactly when not authenticated, and first; `/unauthorized` exactly when a user is held whose role is not allowed; nothing else is pushed and no route twice; nothing is rendered exactly when some redirect is pushed, so an authenticated user with an allowed role sees the page and no redirect |
| `WithAuth.StoreGuard` | components/hoc/withAuth.tsx:12-13 | the guard read from a store that keeps its invariant renders exactly for a held user whose role is allowed |
| `WithAuth.RendersOnlyAllowedRoles` | components/hoc/withAuth.tsx:25-29 | under the store invariant the page renders exactly when a user is held whose role is allowed, and at most one redirect is pushed |
| `WithAuth.AuthenticatedWithoutUserRenders` | components/hoc/withAuth.tsx:25 | the render test alone admits an authenticated state with no user |
| `WithAuth.SignedOutSeesLogin` | components/hoc/withAuth.tsx:16-18 | from the store's initial state every dashboard page pushes only `/login` and renders nothing |
| `SideBar.NavigationFor` | components/sidebar/SideBar.tsx:53-67 | `admin` gets Dashboard and Manage, `manager` Dashboard and Permissions, `user` Dashboard and Tasks; no user or another role leaves the list empty; every chosen list starts with Dashboard `/dashboard` |
| `SideBar.NavigationLinksAdmitted` | components/sidebar/SideBar.tsx:22-35 | every link offered to a signed-in user leads to a page whose guard renders for that user's role |
| `SideBar.NonEmpty` | components/sidebar/SideBar.tsx:38 | `filter(Boolean)` keeps every non-empty class and nothing else, never grows the list, and keeps or drops a single class by its emptiness; together with `SideBar.NonEmptyAppend` this fixes order and multiplicity |
| `SideBar.NonEmptyAppend` | components/sidebar/SideBar.tsx:38 | filtering a concatenation keeps each part's non-empty classes, in order |
| `SideBar.ClassNames` | components/sidebar/SideBar.tsx:37-39 | the class string is empty exactly when every class is empty |
| `SideBar.ClassNamesAppend` | components/sidebar/SideBar.tsx:37-39 | one more non-empty class is appended after a single space, or stands alone when it is the first non-empty one; an empty one changes nothing |
| `SideBar.ClassNamesSplits` | components/sidebar/SideBar.tsx:37-39 | for any classes, the result splits on single spaces into the pieces of the non-empty classes in order; for space-free classes, into exactly the non-empty classes |
| `SideBar.ActiveStyleIffCurrent` | components/sidebar/SideBar.tsx:116-130 | a link and its icon start with the active style exactly when `pathName` equals the link's `href` |
| `JsString.TrimEmptyIffBlank` | components/table/TaskTable.tsx:175 | `s.trim() === ''` holds exactly when `s` is all whitespace |
| `UserTable.NonAdmins` | components/table/UserTable.tsx:33-35 | the fetched list keeps every non-admin user and nothing else, never grows, and keeps or drops a single user by its role; with `UserTable.NonAdminsAppend` this fixes order and multiplicity |
| `UserTable.NonAdminsAppend` | components/table/UserTable.tsx:33-35 | the admin filter distributes over concatenation, so kept users stay in fetch order |
| `UserTable.NextStatus` | components/table/UserTable.tsx:52-53 | `'active'` becomes `'inactive'`, any other status becomes `'active'`; the status always changes |
| `UserTable.NextStatusTwice` | components/table/UserTable.tsx:52-53 | toggling an active or inactive status twice restores it |
| `UserTable.WithStatus` | components/table/UserTable.tsx:57-61 | only the users with the id get the new status; every other field and user is unchanged |
| `UserTable.WithRole` | components/table/UserTable.tsx:71-75 | only the users with the id get the new role; every other field and user is unchanged |
| `UserTable.StatusToggled` | components/table/UserTable.tsx:49-61 | after a successful toggle only statuses change; users with another id are unchanged; an unknown id changes nothing; every user with the id gets the status following that of the first such user |
| `UserTable.StatusToggledTwice` | components/table/UserTable.tsx:49-61 | with unique ids, toggling an active or inactive user twice restores the whole list |
| `UserTable.UserTable.constructor` | components/table/UserTable.tsx:28 | the table starts with an empty list |
| `UserTable.UserTable.FetchUsers` | components/table/UserTable.tsx:30-41 | a successful fetch sets the list to the non-admins; a failed one leaves it |
| `UserTable.UserTable.ToggleStatus` | components/table/UserTable.tsx:47-65 | an unknown id sends nothing and changes nothing; otherwise the PATCH carries the next status and the list changes only if it succeeds |
| `UserTable.UserTable.ChangeRole` | components/table/UserTable.tsx:67-79 | the PATCH carries the new role; the role is written into the matching users only if it succeeds |
| `PermissionsTable.RoleUsers` | components/table/PermissionsTable.tsx:40 | the fetched list keeps every user of role `user` and nothing else, never grows, and keeps or drops a single user by its role; with `PermissionsTable.RoleUsersAppend` this fixes order and multiplicity |
| `PermissionsTable.RoleUsersAppend` | components/table/PermissionsTable.tsx:40 | the role filter distributes over concatenation, so kept users stay in fetch order |
| `PermissionsTable.FlipPermission` | components/table/PermissionsTable.tsx:65-68 | the named flag is negated and the other two are unchanged |
| `PermissionsTable.FlipPermissionTwice` | components/table/PermissionsTable.tsx:65-68 | flipping the same flag twice gives back the original record |
| `PermissionsTable.PermissionsTable.constructor` | components/table/PermissionsTable.tsx:35 | the table starts with an empty list |
| `PermissionsTable.PermissionsTable.FetchUsers` | components/table/PermissionsTable.tsx:37-47 | a successful fetch sets the list to the users of role `user`; a failed one leaves it |
| `PermissionsTable.PermissionsTable.TogglePermission` | components/table/PermissionsTable.tsx:53-80 | an unknown id sends nothing and changes nothing; otherwise the PATCH carries the flipped record, and the list changes only by a successful re-fetch after a successful PATCH |
| `TaskTable.Granted` | components/table/TaskTable.tsx:85 | a gate (`user?.permissions.add`, and likewise `delete` and `update` at lines 104, 126, 139, 168) passes only for a loaded user with a permission record |
| `TaskTable.GateReadsOnlyItsFlag` | components/table/TaskTable.tsx:85 | for a loaded user with a record, a gate passes exactly when its own flag is set, whatever the other two flags |
| `TaskTable.CompletionGateIsAdd` | components/table/TaskTable.tsx:84-91 | a user with `update` but without `add` is refused the completion toggle while admitted to editing |
| `TaskTable.CompletionToggled` | components/table/TaskTable.tsx:92-94 | `completed` is negated exactly on the tasks with the id; length, order, ids and every other field are unchanged |
| `TaskTable.DeletionToggled` | components/table/TaskTable.tsx:114-116 | `deleted` is negated exactly on the tasks with the id; everything else is unchanged |
| `TaskTable.EditApplied` | components/table/TaskTable.tsx:146-150 | the tasks with the id take the scratch title and description; every other task is unchanged |
| `TaskTable.CompletionToggledTwice` | components/table/TaskTable.tsx:92-94 | toggling completion of the same id twice restores the list |
| `TaskTable.DeletionToggledTwice` | components/table/TaskTable.tsx:114-116 | toggling deletion of the same id twice restores the list |
| `TaskTable.AbsentIdUnchanged` | components/table/TaskTable.tsx:97-100 | for an id no task carries, both toggles and the edit leave the list unchanged |
| `TaskTable.NewTaskAccepted` | components/table/TaskTable.tsx:167-183 | a new task is accepted exactly when `add` is granted and neither input is all whitespace |
| `TaskTable.TaskTable.constructor` | components/table/TaskTable.tsx:62-68 | the table starts with no tasks, no loaded user, no row in edit and empty inputs |
| `TaskTable.TaskTable.Load` | components/table/TaskTable.tsx:73-82 | with a session user, the loaded user and the task list are set only when both fetches arrive |
| `TaskTable.TaskTable.ToggleTaskCompletion` | components/table/TaskTable.tsx:84-101 | without `add`: no change and no request; with it: completion toggled on the matching tasks, and a PATCH with the new value exactly when the id is listed |
| `TaskTable.TaskTable.ToggleTaskDeletion` | components/table/TaskTable.tsx:103-123 | without `delete`: no change and no request; with it: deletion toggled on the matching tasks, and a PATCH with the new value exactly when the id is listed |
| `TaskTable.TaskTable.StartEditing` | components/table/TaskTable.tsx:125-136 | without `update`: nothing changes; with it: the row enters edit mode with the task's title and description in the buffer |
| `TaskTable.TaskTable.SaveEditing` | components/table/TaskTable.tsx:138-161 | without `update`: nothing changes; with it: the buffer is written into the matching tasks, a PATCH is sent when the id is listed, and edit mode ends unless that PATCH failed |
| `TaskTable.TaskTable.CancelEditing` | components/table/TaskTable.tsx:163-165 | edit mode ends; the list and buffer are untouched |
| `TaskTable.TaskTable.AddNewTask` | components/table/TaskTable.tsx:167-197 | refused (nothing changes) without `add` or with a blank input; otherwise exactly one task is appended, not completed, not deleted, owned by the session user, and both inputs are cleared |
| `TaskTable.TaskTable.SetNewTaskTitle` | components/table/TaskTable.tsx:211 | the title input holds what was typed |
| `TaskTable.TaskTable.SetNewTaskDescription` | components/table/TaskTable.tsx:216 | the description input holds what was typed |
| `TaskTable.TaskTable.SetEditedTitle` | components/table/TaskTable.tsx:245 | the scratch title holds what was typed |
| `TaskTable.TaskTable.SetEditedDescription` | components/table/TaskTable.tsx:259 | the scratch description holds what was typed |

## Left out

- The HTTP client (services/axios.ts) is not part of this model: every call is a parameter giving its outcome, and every PATCH is returned as a value.
- The JSON wrapping of the task PATCH body (components/table/TaskTable.tsx:56-58) is wire serialisation to an API that is not visible; the model returns the partial update itself.
- Toast notifications and console logging: a refusal is modelled only as "nothing changes, nothing is sent".
- `Date.now()` task ids: the id is the `newId` parameter of `AddNewTask`.
- `Promise.all` and effect timing: `Load` takes both fetch outcomes at once and sets both fields only when both succeed; React re-rendering, stale closures and unmounting are not modelled, and handlers run one at a time.
- The permissions table's re-fetch is not awaited in the source; the model applies its outcome immediately after a successful PATCH.
- A loaded task-table user without a permission record makes the handlers throw before any change; the model folds this into "refused" (`TaskTable.Granted`). The same holds in `TogglePermission`, where the throw is caught.
- View-level gating in the task table's markup (a deleted row's text does not open edit mode, components/table/TaskTable.tsx:250; the completion button is disabled on a deleted row, components/table/TaskTable.tsx:300) is JSX, not a handler, and is not modelled.
- `SideBar.NavigationFor` gives the navigation chosen at mount; the source's effect runs once, so a later change of session user does not recompute it, which the model does not track.
- The sidebar's `logOut` handler only navigates to `/login` and does not call the store's `logout`; navigation and the sidebar's open/closed state are not modelled.
- Extra keys a permission record might carry beyond `add`, `delete`, `update` (kept by the object spread) are not represented.
- Layout, styling beyond the active-link test, icons, the dashboard statistics, login, registration and the other pages are not part of this model.

=== FILE: entities.dfy ===
/**
 * The records the panel exchanges with the API: users with their role,
 * status and permission set, and tasks with their two independent flags.
 * Roles and statuses are plain strings in the program, and stay strings here.
 */
module Entities {
  import opened Wrappers

  const AdminRole := "admin"
  const ManagerRole := "manager"
  const UserRole := "user"

  const ActiveStatus := "active"
  const InactiveStatus := "inactive"

  /** The per-user `{add, delete, update}` record that gates task actions. */
  datatype Permissions = Permissions(add: bool, delete: bool, update: bool)

  /** A key of the permission record (`keyof Permission`). */
  datatype PermissionFlag = Add | Delete | Update

  /** `permissions[flag]`. */
  function Flag(p: Permissions, flag: PermissionFlag): bool
  {
    match flag
    case Add => p.add
    case Delete => p.delete
    case Update => p.update
  }

  /** A user record; `permissions` is optional, as in the session store's `UserI`. */
  datatype User = User(
    id: string,
    name: string,
    email: string,
    password: string,
    role: string,
    status: string,
    permissions: Option<Permissions>)

  /** A task record; `userId` is `string | undefined`. */
  datatype Task = Task(
    id: string,
    title: string,
    description: string,
    completed: bool,
    deleted: bool,
    userId: Option<string>)

  /** The body of a `PATCH /users/{id}`: one field of the user record. */
  datatype UserField =
    | StatusField(status: string)
    | RoleField(role: string)
    | PermissionsField(permissions: Permissions)

  /** A `PATCH /users/{id}` the panel issued. */
  datatype UserPatch = UserPatch(id: string, field: UserField)

  /** No two users of the list share an id (the API assigns ids). */
  predicate UniqueIds(users: seq<User>)
  {
    forall i, j :: 0 <= i < j < |users| ==> users[i].id != users[j].id
  }
}

=== FILE: js_string.dfy ===
/**
 * The pieces of the JavaScript string runtime that the components lean on:
 * `String.prototype.trim`, `Array.prototype.join` and, to state what a joined
 * class list means, `String.prototype.split(' ')`.
 */
module JsString {

  /**
   * The characters `trim` removes: ECMAScript WhiteSpace (tab, vertical tab,
   * form feed, space, no-break space, byte order mark and the Unicode space
   * separators) and LineTerminator (line feed, carriage return, line and
   * paragraph separators).
   */
  predicate IsWhitespace(c: char)
  {
    c == '\t' || c == '\n' || c == '\U{000B}' || c == '\U{000C}' || c == '\r' || c == ' '
    || c == '\U{00A0}' || c == '\U{1680}' || ('\U{2000}' <= c <= '\U{200A}')
    || c == '\U{2028}' || c == '\U{2029}' || c == '\U{202F}' || c == '\U{205F}'
    || c == '\U{3000}' || c == '\U{FEFF}'
  }

  /** Every character of `s` is whitespace (the empty string included). */
  predicate IsBlank(s: string)
  {
    forall i :: 0 <= i < |s| ==> IsWhitespace(s[i])
  }

  /** `s.trimStart()`: the suffix left after dropping leading whitespace. */
  function TrimStart(s: string): (r: string)
    ensures |r| <= |s| && r == s[|s| - |r|..]
    ensures r == [] || !IsWhitespace(r[0])
    ensures forall i :: 0 <= i < |s| - |r| ==> IsWhitespace(s[i])
  {
    if s != [] && IsWhitespace(s[0]) then TrimStart(s[1..]) else s
  }

  /** `s.trimEnd()`: the prefix left after dropping trailing whitespace. */
  function TrimEnd(s: string): (r: string)
    ensures |r| <= |s| && r == s[..|r|]
    ensures r == [] || !IsWhitespace(r[|r| - 1])
    ensures forall i :: |r| <= i < |s| ==> IsWhitespace(s[i])
  {
    if s != [] && IsWhitespace(s[|s| - 1]) then TrimEnd(s[..|s| - 1]) else s
  }

  /** `s.trim()`. */
  function Trim(s: string): string
  {
    TrimEnd(TrimStart(s))
  }

  /** `s.trim() === ''` holds exactly when `s` consists of whitespace only. */
  lemma TrimEmptyIffBlank(s: string)
    ensures Trim(s) == "" <==> IsBlank(s)
  {
  }

  /** `xs.join(sep)`. */
  function Join(xs: seq<string>, sep: string): string
  {
    if xs == [] then ""
    else if |xs| == 1 then xs[0]
    else xs[0] + sep + Join(xs[1..], sep)
  }

  /** `s.split(' ')`: the pieces between single spaces; always at least one. */
  function Split(s: string): (r: seq<string>)
    ensures |r| >= 1
  {
    if s == [] then [""]
    else
      var rest := Split(s[1..]);
      if s[0] == ' ' then [""] + rest else [[s[0]] + rest[0]] + rest[1..]
  }

  /** A piece containing no space survives splitting whole. */
  lemma {:induction false} SplitNoSpace(a: string)
    requires ' ' !in a
    ensures Split(a) == [a]
  {
    if a != [] {
      SplitNoSpace(a[1..]);
      assert [a[0]] + a[1..] == a;
    }
  }

  /** How `split(' ')` treats the first character: a space closes a piece, anything else opens or extends the first one. */
  lemma SplitCons(c: char, t: string)
    ensures Split([c] + t) == if c == ' ' then [""] + Split(t) else [[c] + Split(t)[0]] + Split(t)[1..]
  {
    assert ([c] + t)[0] == c && ([c] + t)[1..] == t;
  }

  /** Splitting at one space splits each side on its own: `(a + ' ' + b).split(' ')` is `a.split(' ')` followed by `b.split(' ')`. */
  lemma {:induction false} SplitAtSpace(a: string, b: string)
    ensures Split(a + " " + b) == Split(a) + Split(b)
  {
    if a == [] {
      assert a + " " + b == [' '] + b;
      SplitCons(' ', b);
    } else {
      var c, t := a[0], a[1..];
      assert a == [c] + t;
      assert a + " " + b == [c] + (t + " " + b);
      SplitAtSpace(t, b);
      SplitCons(c, t + " " + b);
      SplitCons(c, t);
      var left, right := Split(t), Split(b);
      if c != ' ' {
        assert (left + right)[0] == left[0];
        assert (left + right)[1..] == left[1..] + right;
      }
    }
  }

  /** Joining one more piece appends a single separator and the piece. */
  lemma {:induction false} JoinAppend(xs: seq<string>, x: string, sep: string)
    requires xs != []
    ensures Join(xs + [x], sep) == Join(xs, sep) + sep + x
  {
    if |xs| == 1 {
      assert (xs + [x])[1..] == [x];
    } else {
      JoinAppend(xs[1..], x, sep);
      assert (xs + [x])[1..] == xs[1..] + [x];
    }
  }

  /** A joined list of pieces, the first of them non-empty, is not empty. */
  lemma JoinNonEmpty(xs: seq<string>, sep: string)
    requires xs != [] && xs[0] != ""
    ensures Join(xs, sep) != ""
  {
  }

  /** The pieces of every string of `xs`, one string after another. */
  function SplitAll(xs: seq<string>): seq<string>
  {
    if xs == [] then [] else Split(xs[0]) + SplitAll(xs[1..])
  }

  /** Splitting a space-joined list gives the pieces of each element in turn. */
  lemma {:induction false} SplitJoin(xs: seq<string>)
    requires xs != []
    ensures Split(Join(xs, " ")) == SplitAll(xs)
  {
    if |xs| == 1 {
      assert SplitAll(xs[1..]) == [];
    } else {
      SplitJoin(xs[1..]);
      SplitAtSpace(xs[0], Join(xs[1..], " "));
    }
  }

  /** Space-free strings are their own pieces. */
  lemma {:induction false} SplitAllNoSpace(xs: seq<string>)
    requires forall i :: 0 <= i < |xs| ==> ' ' !in xs[i]
    ensures SplitAll(xs) == xs
  {
    if xs != [] {
      SplitNoSpace(xs[0]);
      SplitAllNoSpace(xs[1..]);
      assert [xs[0]] + xs[1..] == xs;
    }
  }
}

=== FILE: lists.dfy ===
/**
 * The array operations the components rely on (`map`, `filter`, `find`),
 * each specified element by element.
 */
module Lists {
  import opened Wrappers

  /** `xs.map(x => hit(x) ? f(x) : x)`: rewrites exactly the elements that `hit` selects. */
  function MapWhere<T>(xs: seq<T>, hit: T -> bool, f: T -> T): (r: seq<T>)
    ensures |r| == |xs|
    ensures forall i :: 0 <= i < |xs| ==> r[i] == if hit(xs[i]) then f(xs[i]) else xs[i]
  {
    if xs == [] then []
    else [if hit(xs[0]) then f(xs[0]) else xs[0]] + MapWhere(xs[1..], hit, f)
  }

  /** `xs.filter(keep)`: the elements `keep` accepts, no others, none added. */
  function KeepWhere<T(==)>(xs: seq<T>, keep: T -> bool): (r: seq<T>)
    ensures |r| <= |xs|
    ensures |xs| == 1 ==> r == if keep(xs[0]) then xs else []
    ensures forall i :: 0 <= i < |r| ==> r[i] in xs && keep(r[i])
    ensures forall i :: 0 <= i < |xs| && keep(xs[i]) ==> xs[i] in r
  {
    if xs == [] then []
    else
      var rest := KeepWhere(xs[1..], keep);
      if keep(xs[0]) then [xs[0]] + rest else rest
  }

  /** Filtering distributes over concatenation: the kept elements stay in their original order. */
  lemma {:induction false} KeepWhereAppend<T>(a: seq<T>, b: seq<T>, keep: T -> bool)
    ensures KeepWhere(a + b, keep) == KeepWhere(a, keep) + KeepWhere(b, keep)
  {
    if a == [] {
      assert a + b == b;
    } else {
      assert (a + b)[0] == a[0];
      assert (a + b)[1..] == a[1..] + b;
      KeepWhereAppend(a[1..], b, keep);
    }
  }

  /** The position of the first element `hit` selects, when there is one: the helper behind `find`. */
  function FirstIndex<T>(xs: seq<T>, hit: T -> bool): (r: Option<nat>)
    ensures r.None? <==> forall i :: 0 <= i < |xs| ==> !hit(xs[i])
    ensures r.Some? ==> r.value < |xs| && hit(xs[r.value])
    ensures r.Some? ==> forall j :: 0 <= j < r.value ==> !hit(xs[j])
  {
    if xs == [] then None
    else if hit(xs[0]) then Some(0)
    else
      match FirstIndex(xs[1..], hit)
      case None => None
      case Some(k) => Some(k + 1)
  }

  /** `xs.find(hit)`: the first element `hit` selects, or nothing when none does. */
  function FindWhere<T>(xs: seq<T>, hit: T -> bool): (r: Option<T>)
    ensures r.None? <==> forall i :: 0 <= i < |xs| ==> !hit(xs[i])
    ensures r.Some? ==> hit(r.value)
    ensures r.Some? ==> exists i :: 0 <= i < |xs| && xs[i] == r.value
    ensures r.Some? ==> exists i :: 0 <= i < |xs| && xs[i] == r.value && forall j :: 0 <= j < i ==> !hit(xs[j])
  {
    match FirstIndex(xs, hit)
    case None => None
    case Some(i) => Some(xs[i])
  }
}

=== FILE: permissions_table.dfy ===
/**
 * The permissions matrix a manager sees: the fetched users of role `user`
 * and the single-flag flip, written to the API and then re-fetched; the local
 * list is never edited in place.
 */
module PermissionsTable {
  import opened Wrappers
  import opened Entities
  import opened Lists
  import UserTable

  /** The list the table shows after a fetch: exactly the users of role `user`, in the order fetched. */
  function RoleUsers(users: seq<User>): (r: seq<User>)
    ensures |r| <= |users|
    ensures |users| == 1 ==> r == if users[0].role == UserRole then users else []
    ensures forall i :: 0 <= i < |r| ==> r[i] in users && r[i].role == UserRole
    ensures forall i :: 0 <= i < |users| && users[i].role == UserRole ==> users[i] in r
  {
    KeepWhere(users, (u: User) => u.role == UserRole)
  }

  /** Fetching a concatenation keeps each part's users of role `user`, in order. */
  lemma RoleUsersAppend(a: seq<User>, b: seq<User>)
    ensures RoleUsers(a + b) == RoleUsers(a) + RoleUsers(b)
  {
    KeepWhereAppend(a, b, (u: User) => u.role == UserRole);
  }

  /** `{...p, [flag]: !p[flag]}`: the named flag negated, the other two kept. */
  function FlipPermission(p: Permissions, flag: PermissionFlag): (r: Permissions)
    ensures Flag(r, flag) == !Flag(p, flag)
    ensures forall other :: other != flag ==> Flag(r, other) == Flag(p, other)
  {
    match flag
    case Add => p.(add := !p.add)
    case Delete => p.(delete := !p.delete)
    case Update => p.(update := !p.update)
  }

  /** Flipping the same flag twice gives back the original record. */
  lemma FlipPermissionTwice(p: Permissions, flag: PermissionFlag)
    ensures FlipPermission(FlipPermission(p, flag), flag) == p
  {
  }

  /** The table's state: the list it shows. */
  class PermissionsTable {
    var users: seq<User>

    /** The table mounts with an empty list. */
    constructor ()
      ensures users == []
    {
      users := [];
    }

    /** `fetchUsers`: on success the list becomes the fetched users of role `user`; on failure it stays. */
    method FetchUsers(response: Response<seq<User>>)
      modifies this
      ensures response.Ok? ==> users == RoleUsers(response.data)
      ensures response.Failed? ==> users == old(users)
    {
      if response.Ok? {
        users := RoleUsers(response.data);
      }
    }

    /**
     * `togglePermission(userId, flag)`: with no listed user of that id, or one
     * without a permission record (reading its flag throws inside the `try`),
     * no request and no change. Otherwise the PATCH carries the record with
     * the flag flipped; a failed PATCH changes nothing, a successful one is
     * followed by a re-fetch whose outcome alone sets the list.
     */
    method TogglePermission(userId: string, flag: PermissionFlag, patchOk: bool, refetch: Response<seq<User>>)
      returns (request: Option<UserPatch>)
      modifies this
      ensures var found := FindWhere(old(users), UserTable.HasId(userId));
              if found.None? || found.value.permissions.None? then request == None
              else request == Some(UserPatch(userId, PermissionsField(FlipPermission(found.value.permissions.value, flag))))
      ensures users == if request.Some? && patchOk && refetch.Ok? then RoleUsers(refetch.data) else old(users)
    {
      var found := FindWhere(users, UserTable.HasId(userId));
      if found.None? || found.value.permissions.None? {
        return None;
      }
      var updated := FlipPermission(found.value.permissions.value, flag);
      request := Some(UserPatch(userId, PermissionsField(updated)));
      if patchOk {
        FetchUsers(refetch);
      }
    }
  }
}

=== FILE: routes.dfy ===
/** The client-side routes and the roles each guarded dashboard page admits. */
module Routes {
  import opened Wrappers
  import opened Entities

  const LoginRoute := "/login"
  const UnauthorizedRoute := "/unauthorized"
  const DashboardRoute := "/dashboard"
  const TasksRoute := "/dashboard/tasks"
  const ManageRoute := "/dashboard/manage"
  const PermissionRoute := "/dashboard/permission"
  /** The guarded pages beneath the dashboard. */
  const SubPages := {TasksRoute, ManageRoute, PermissionRoute}

  /** The `allowedRoles` each dashboard page hands to the access guard; none for other routes. */
  function PageRoles(route: string): (roles: Option<seq<string>>)
    ensures roles.Some? <==> route in {DashboardRoute, TasksRoute, ManageRoute, PermissionRoute}
    ensures roles.Some? ==> roles.value != []
    ensures roles.Some? ==> forall i :: 0 <= i < |roles.value| ==> roles.value[i] in {AdminRole, ManagerRole, UserRole}
  {
    if route == DashboardRoute then Some([AdminRole, UserRole, ManagerRole])
    else if route == TasksRoute then Some([UserRole])
    else if route == ManageRoute then Some([AdminRole])
    else if route == PermissionRoute then Some([ManagerRole])
    else None
  }

  /** The dashboard admits every role that any guarded page admits. */
  lemma DashboardAdmitsPageRoles(route: string, role: string)
    requires PageRoles(route).Some? && role in PageRoles(route).value
    ensures role in PageRoles(DashboardRoute).value
  {
  }

  /** Each role has exactly one page beneath the dashboard, which admits that role alone. */
  lemma OnePagePerRole(role: string)
    requires role in {AdminRole, ManagerRole, UserRole}
    ensures exists route :: route in SubPages && PageRoles(route) == Some([role])
    ensures forall r1, r2 ::
              r1 in SubPages && r2 in SubPages && role in PageRoles(r1).value && role in PageRoles(r2).value ==> r1 == r2
  {
    var route := if role == AdminRole then ManageRoute else if role == ManagerRole then PermissionRoute else TasksRoute;
    assert PageRoles(route) == Some([role]);
  }
}

=== FILE: side_bar.dfy ===
/**
 * The sidebar: which navigation list a role gets, the `classNames` helper,
 * and how a link is styled when it points at the current path.
 */
module SideBar {
  import opened Wrappers
  import opened Entities
  import opened Lists
  import opened JsString
  import opened Routes
  import opened WithAuth

  /** One entry of a navigation list (its icon is left out). */
  datatype NavItem = NavItem(name: string, href: string)

  const UserNavigation := [NavItem("Dashboard", DashboardRoute), NavItem("Tasks", TasksRoute)]
  const AdminNavigation := [NavItem("Dashboard", DashboardRoute), NavItem("Manage", ManageRoute)]
  const ManagerNavigation := [NavItem("Dashboard", DashboardRoute), NavItem("Permissions", PermissionRoute)]

  /**
   * The `navigation` state after the mount effect: it starts empty and, when
   * a session user is present, the three role tests run one after another.
   */
  function NavigationFor(user: Option<User>): (nav: seq<NavItem>)
    ensures nav == [] <==> user.None? || user.value.role !in {AdminRole, ManagerRole, UserRole}
    ensures user.Some? && user.value.role == AdminRole ==> nav == AdminNavigation
    ensures user.Some? && user.value.role == ManagerRole ==> nav == ManagerNavigation
    ensures user.Some? && user.value.role == UserRole ==> nav == UserNavigation
    ensures nav != [] ==> nav[0] == NavItem("Dashboard", DashboardRoute)
  {
    if user.None? then []
    else
      var role := user.value.role;
      var afterAdmin := if role == AdminRole then AdminNavigation else [];
      var afterManager := if role == ManagerRole then ManagerNavigation else afterAdmin;
      if role == UserRole then UserNavigation else afterManager
  }

  /**
   * Every link the sidebar offers a signed-in user leads to a page whose
   * guard admits that user's role.
   */
  lemma NavigationLinksAdmitted(u: User, i: nat)
    requires i < |NavigationFor(Some(u))|
    ensures PageRoles(NavigationFor(Some(u))[i].href).Some?
    ensures Guard(true, Some(u), PageRoles(NavigationFor(Some(u))[i].href).value) == GuardDecision([], true)
  {
  }

  /** The classes `filter(Boolean)` keeps: the non-empty ones, each in its place, in order. */
  function NonEmpty(classes: seq<string>): (r: seq<string>)
    ensures |r| <= |classes|
    ensures |classes| == 1 ==> r == if classes[0] != "" then classes else []
    ensures forall i :: 0 <= i < |r| ==> r[i] in classes && r[i] != ""
    ensures forall i :: 0 <= i < |classes| && classes[i] != "" ==> classes[i] in r
  {
    KeepWhere(classes, (c: string) => c != "")
  }

  /** Keeping the non-empty classes of a concatenation keeps each part's, in order. */
  lemma NonEmptyAppend(a: seq<string>, b: seq<string>)
    ensures NonEmpty(a + b) == NonEmpty(a) + NonEmpty(b)
  {
    KeepWhereAppend(a, b, (c: string) => c != "");
  }

  /** `classNames(...classes)`: drop the empty strings, join the rest with single spaces. */
  function ClassNames(classes: seq<string>): (r: string)
    ensures r == "" <==> forall i :: 0 <= i < |classes| ==> classes[i] == ""
  {
    var kept := NonEmpty(classes);
    assert kept != [] ==> Join(kept, " ") != "" by {
      if kept != [] {
        JoinNonEmpty(kept, " ");
      }
    }
    Join(kept, " ")
  }

  /**
   * One more non-empty class is appended after a single space, or stands
   * alone when it is the first non-empty one; an empty one changes nothing.
   */
  lemma ClassNamesAppend(classes: seq<string>, c: string)
    ensures ClassNames(classes + [c]) ==
              if c == "" then ClassNames(classes)
              else if NonEmpty(classes) == [] then c
              else ClassNames(classes) + " " + c
  {
    NonEmptyAppend(classes, [c]);
    if c != "" {
      if NonEmpty(classes) != [] {
        JoinAppend(NonEmpty(classes), c, " ");
      }
    } else {
      assert NonEmpty(classes) + NonEmpty([c]) == NonEmpty(classes);
    }
  }

  /**
   * The class string splits on single spaces into the pieces of the
   * non-empty classes, in order; when no class holds a space, into exactly
   * the non-empty classes.
   */
  lemma ClassNamesSplits(classes: seq<string>)
    ensures NonEmpty(classes) != [] ==> Split(ClassNames(classes)) == SplitAll(NonEmpty(classes))
    ensures (forall i :: 0 <= i < |classes| ==> ' ' !in classes[i]) && NonEmpty(classes) != [] ==>
              Split(ClassNames(classes)) == NonEmpty(classes)
  {
    var kept := NonEmpty(classes);
    if kept != [] {
      SplitJoin(kept);
      if forall i :: 0 <= i < |classes| ==> ' ' !in classes[i] {
        SplitAllNoSpace(kept);
      }
    }
  }

  // The style strings are written as concatenations of shorter literals so
  // that the verifier can read their characters.
  const ActiveLinkStyle := "bg-gray-50 " + "text-primary"
  const InactiveLinkStyle := "text-gray-700 " + "hover:bg-gray-50 " + "hover:text-primary"
  const LinkLayout := "group flex " + "gap-x-3 rounded-md " + "p-2 text-sm/6 " + "font-semibold"
  const ActiveIconStyle := "text-primary"
  const InactiveIconStyle := "text-gray-400 " + "group-hover:text-primary"
  const IconLayout := "size-6 " + "shrink-0"

  /** The class string of a navigation link. */
  function LinkClass(pathName: string, href: string): string
  {
    ClassNames([if pathName == href then ActiveLinkStyle else InactiveLinkStyle, LinkLayout])
  }

  /** The class string of a navigation link's icon. */
  function IconClass(pathName: string, href: string): string
  {
    ClassNames([if pathName == href then ActiveIconStyle else InactiveIconStyle, IconLayout])
  }

  /** A link and its icon carry the active style exactly when the current path is the link's target. */
  lemma ActiveStyleIffCurrent(pathName: string, href: string)
    ensures ActiveLinkStyle <= LinkClass(pathName, href) <==> pathName == href
    ensures ActiveIconStyle <= IconClass(pathName, href) <==> pathName == href
  {
    var link := if pathName == href then ActiveLinkStyle else InactiveLinkStyle;
    var icon := if pathName == href then ActiveIconStyle else InactiveIconStyle;
    assert NonEmpty([link, LinkLayout]) == [link, LinkLayout];
    assert NonEmpty([icon, IconLayout]) == [icon, IconLayout];
    assert [link, LinkLayout][1..] == [LinkLayout];
    assert [icon, IconLayout][1..] == [IconLayout];
    assert Join([LinkLayout], " ") == LinkLayout;
    assert Join([IconLayout], " ") == IconLayout;
    assert LinkClass(pathName, href) == link + " " + LinkLayout;
    assert IconClass(pathName, href) == icon + " " + IconLayout;
    if pathName != href {
      assert InactiveLinkStyle[0] == 't';
      assert ActiveLinkStyle[0] == 'b';
      assert LinkClass(pathName, href)[0] == 't';
      assert InactiveIconStyle[5] == 'g';
      assert ActiveIconStyle[5] == 'p';
      assert IconClass(pathName, href)[5] == 'g';
    }
  }
}

=== FILE: task_table.dfy ===
/**
 * The task table of a signed-in `user`: the task list with its per-task
 * `completed` and `deleted` flags, the per-row edit mode with its scratch
 * title and description, the new-task form, and the loaded user whose
 * permission record gates every action.
 */
module TaskTable {
  import opened Wrappers
  import opened Entities
  import opened Lists
  import opened JsString
  import UserStore

  /** The partial update a `PATCH /tasks/{id}` carries. */
  datatype TaskUpdate =
    | CompletedUpdate(completed: bool)
    | DeletedUpdate(deleted: bool)
    | TextUpdate(title: string, description: string)

  /** A `PATCH /tasks/{id}` the table issued. */
  datatype TaskPatch = TaskPatch(id: string, update: TaskUpdate)

  /**
   * `user?.permissions[flag]` read as a gate: refused when no user is loaded
   * or the flag is false. A loaded user without a permission record makes
   * the handler throw before it changes anything, which is refused as well.
   */
  predicate Granted(user: Option<User>, flag: PermissionFlag): (r: bool)
    ensures r ==> user.Some? && user.value.permissions.Some?
  {
    user.Some? && user.value.permissions.Some? && Flag(user.value.permissions.value, flag)
  }

  /**
   * Each gate reads its own flag and no other: two loaded users whose
   * records agree on `flag` are treated alike. In particular the completion
   * toggle, gated on `add`, ignores `update`.
   */
  lemma GateReadsOnlyItsFlag(u: User, p: Permissions, q: Permissions, flag: PermissionFlag)
    requires Flag(p, flag) == Flag(q, flag)
    ensures Granted(Some(u.(permissions := Some(p))), flag) == Granted(Some(u.(permissions := Some(q))), flag)
    ensures Granted(Some(u.(permissions := Some(p))), flag) == Flag(p, flag)
  {
  }

  /** A user who may update but not add is refused the completion toggle and admitted to editing. */
  lemma CompletionGateIsAdd(u: User)
    requires u.permissions.Some? && !u.permissions.value.add && u.permissions.value.update
    ensures !Granted(Some(u), Add) && Granted(Some(u), Update)
  {
  }

  /** Selects the tasks whose id is `id`. */
  function HasTaskId(id: string): Task -> bool
  {
    (t: Task) => t.id == id
  }

  /** The list with `completed` negated on every task whose id is `id`; nothing else differs. */
  function CompletionToggled(tasks: seq<Task>, id: string): (r: seq<Task>)
    ensures |r| == |tasks|
    ensures forall i :: 0 <= i < |tasks| ==> r[i].(completed := tasks[i].completed) == tasks[i]
    ensures forall i :: 0 <= i < |tasks| ==> r[i].completed == (tasks[i].completed != (tasks[i].id == id))
  {
    MapWhere(tasks, HasTaskId(id), (t: Task) => t.(completed := !t.completed))
  }

  /** The list with `deleted` negated on every task whose id is `id`; nothing else differs. */
  function DeletionToggled(tasks: seq<Task>, id: string): (r: seq<Task>)
    ensures |r| == |tasks|
    ensures forall i :: 0 <= i < |tasks| ==> r[i].(deleted := tasks[i].deleted) == tasks[i]
    ensures forall i :: 0 <= i < |tasks| ==> r[i].deleted == (tasks[i].deleted != (tasks[i].id == id))
  {
    MapWhere(tasks, HasTaskId(id), (t: Task) => t.(deleted := !t.deleted))
  }

  /** The list with the given title and description on every task whose id is `id`; nothing else differs. */
  function EditApplied(tasks: seq<Task>, id: string, title: string, description: string): (r: seq<Task>)
    ensures |r| == |tasks|
    ensures forall i :: 0 <= i < |tasks| && tasks[i].id != id ==> r[i] == tasks[i]
    ensures forall i :: 0 <= i < |tasks| && tasks[i].id == id ==>
              r[i] == tasks[i].(title := title, description := description)
  {
    MapWhere(tasks, HasTaskId(id), (t: Task) => t.(title := title, description := description))
  }

  /** Toggling completion of the same id twice restores the list. */
  lemma CompletionToggledTwice(tasks: seq<Task>, id: string)
    ensures CompletionToggled(CompletionToggled(tasks, id), id) == tasks
  {
  }

  /** Toggling deletion of the same id twice restores the list. */
  lemma DeletionToggledTwice(tasks: seq<Task>, id: string)
    ensures DeletionToggled(DeletionToggled(tasks, id), id) == tasks
  {
  }

  /** For an id no task carries, both toggles and the edit leave the list as it was. */
  lemma AbsentIdUnchanged(tasks: seq<Task>, id: string, title: string, description: string)
    requires FindWhere(tasks, HasTaskId(id)).None?
    ensures CompletionToggled(tasks, id) == tasks
    ensures DeletionToggled(tasks, id) == tasks
    ensures EditApplied(tasks, id, title, description) == tasks
  {
  }

  /** The owner a new task records: the session user's id, `undefined` without one. */
  function OwnerId(sessionUser: Option<User>): Option<string>
  {
    if sessionUser.Some? then Some(sessionUser.value.id) else None
  }

  /** The form is refused exactly when `add` is missing or an input holds nothing but whitespace. */
  predicate NewTaskAccepted(user: Option<User>, title: string, description: string): (r: bool)
    ensures r <==> Granted(user, Add) && !IsBlank(title) && !IsBlank(description)
  {
    TrimEmptyIffBlank(title);
    TrimEmptyIffBlank(description);
    Granted(user, Add) && Trim(title) != "" && Trim(description) != ""
  }

  /** The component's state. */
  class TaskTable {
    var tasks: seq<Task>
    var user: Option<User>
    var editingTask: Option<string>
    var editedTitle: string
    var editedDescription: string
    var newTaskTitle: string
    var newTaskDescription: string

    /** The table mounts with no tasks, no loaded user, no row in edit and empty inputs. */
    constructor ()
      ensures tasks == [] && user == None && editingTask == None
      ensures editedTitle == "" && editedDescription == ""
      ensures newTaskTitle == "" && newTaskDescription == ""
    {
      tasks, user, editingTask := [], None, None;
      editedTitle, editedDescription := "", "";
      newTaskTitle, newTaskDescription := "", "";
    }

    /**
     * The mount effect: with a session user, the user record and the task
     * list are fetched together and both set only if both arrive.
     */
    method Load(session: UserStore.AuthStore, fetchedUser: Response<User>, fetchedTasks: Response<seq<Task>>)
      modifies this`tasks, this`user
      ensures if session.user.Some? && fetchedUser.Ok? && fetchedTasks.Ok?
              then user == Some(fetchedUser.data) && tasks == fetchedTasks.data
              else user == old(user) && tasks == old(tasks)
    {
      if session.user.Some? && fetchedUser.Ok? && fetchedTasks.Ok? {
        user := Some(fetchedUser.data);
        tasks := fetchedTasks.data;
      }
    }

    /**
     * `toggleTaskCompletion(taskId)`, gated on the `add` flag: the matching
     * tasks' `completed` is negated locally, then, if a task with that id was
     * listed, a PATCH carrying its new value is issued. The local change
     * stays whatever the PATCH's outcome.
     */
    method ToggleTaskCompletion(taskId: string) returns (request: Option<TaskPatch>)
      modifies this`tasks
      ensures !Granted(user, Add) ==> tasks == old(tasks) && request == None
      ensures Granted(user, Add) ==> tasks == CompletionToggled(old(tasks), taskId)
      ensures Granted(user, Add) ==>
                var found := FindWhere(old(tasks), HasTaskId(taskId));
                request == if found.None? then None else Some(TaskPatch(taskId, CompletedUpdate(!found.value.completed)))
      ensures request.Some? ==>
                exists i :: 0 <= i < |tasks| && tasks[i].id == taskId && tasks[i].completed == request.value.update.completed
    {
      if !Granted(user, Add) {
        return None;
      }
      var found := FindWhere(tasks, HasTaskId(taskId));
      tasks := CompletionToggled(tasks, taskId);
      request := if found.None? then None else Some(TaskPatch(taskId, CompletedUpdate(!found.value.completed)));
    }

    /**
     * `toggleTaskDeletion(taskId)`, gated on the `delete` flag: the matching
     * tasks' `deleted` is negated locally, then, if a task with that id was
     * listed, a PATCH carrying its new value is issued.
     */
    method ToggleTaskDeletion(taskId: string) returns (request: Option<TaskPatch>)
      modifies this`tasks
      ensures !Granted(user, Delete) ==> tasks == old(tasks) && request == None
      ensures Granted(user, Delete) ==> tasks == DeletionToggled(old(tasks), taskId)
      ensures Granted(user, Delete) ==>
                var found := FindWhere(old(tasks), HasTaskId(taskId));
                request == if found.None? then None else Some(TaskPatch(taskId, DeletedUpdate(!found.value.deleted)))
      ensures request.Some? ==>
                exists i :: 0 <= i < |tasks| && tasks[i].id == taskId && tasks[i].deleted == request.value.update.deleted
    {
      if !Granted(user, Delete) {
        return None;
      }
      var found := FindWhere(tasks, HasTaskId(taskId));
      tasks := DeletionToggled(tasks, taskId);
      request := if found.None? then None else Some(TaskPatch(taskId, DeletedUpdate(!found.value.deleted)));
    }

    /** `startEditing(task)`, gated on the `update` flag: the row enters edit mode with the task's text in the scratch buffer. */
    method StartEditing(task: Task)
      modifies this`editingTask, this`editedTitle, this`editedDescription
      ensures Granted(user, Update) ==>
                editingTask == Some(task.id) && editedTitle == task.title && editedDescription == task.description
      ensures !Granted(user, Update) ==>
                editingTask == old(editingTask) && editedTitle == old(editedTitle) && editedDescription == old(editedDescription)
    {
      if !Granted(user, Update) {
        return;
      }
      editingTask := Some(task.id);
      editedTitle := task.title;
      editedDescription := task.description;
    }

    /**
     * `saveEditing(taskId)`, gated on the `update` flag: the scratch text is
     * written into the matching tasks, then, if a task with that id was
     * listed, a PATCH carrying it is issued; edit mode ends unless that PATCH
     * failed, since the failure skips the rest of the handler.
     */
    method SaveEditing(taskId: string, patchOk: bool) returns (request: Option<TaskPatch>)
      modifies this`tasks, this`editingTask
      ensures !Granted(user, Update) ==> tasks == old(tasks) && editingTask == old(editingTask) && request == None
      ensures Granted(user, Update) ==> tasks == EditApplied(old(tasks), taskId, editedTitle, editedDescription)
      ensures Granted(user, Update) ==>
                request == if FindWhere(old(tasks), HasTaskId(taskId)).None? then None
                           else Some(TaskPatch(taskId, TextUpdate(editedTitle, editedDescription)))
      ensures Granted(user, Update) ==>
                editingTask == if request.Some? && !patchOk then old(editingTask) else None
    {
      if !Granted(user, Update) {
        return None;
      }
      var found := FindWhere(tasks, HasTaskId(taskId));
      tasks := EditApplied(tasks, taskId, editedTitle, editedDescription);
      request := None;
      if found.Some? {
        request := Some(TaskPatch(taskId, TextUpdate(editedTitle, editedDescription)));
        if !patchOk {
          return;
        }
      }
      editingTask := None;
    }

    /** `cancelEditing()`: leaves edit mode; the scratch buffer and the list are untouched. */
    method CancelEditing()
      modifies this`editingTask
      ensures editingTask == None
    {
      editingTask := None;
    }

    /**
     * `addNewTask()`, gated on the `add` flag and on both inputs being
     * non-blank: appends one task with the untrimmed inputs, both flags
     * false and the session user as owner, then clears the inputs. No
     * request is made.
     */
    method AddNewTask(newId: string, session: UserStore.AuthStore)
      modifies this`tasks, this`newTaskTitle, this`newTaskDescription
      ensures NewTaskAccepted(user, old(newTaskTitle), old(newTaskDescription)) ==>
                |tasks| == |old(tasks)| + 1 && tasks[..|old(tasks)|] == old(tasks)
                && tasks[|tasks| - 1].id == newId
                && tasks[|tasks| - 1].title == old(newTaskTitle)
                && tasks[|tasks| - 1].description == old(newTaskDescription)
                && !tasks[|tasks| - 1].completed && !tasks[|tasks| - 1].deleted
                && tasks[|tasks| - 1].userId == (if session.user.Some? then Some(session.user.value.id) else None)
                && newTaskTitle == "" && newTaskDescription == ""
      ensures !NewTaskAccepted(user, old(newTaskTitle), old(newTaskDescription)) ==>
                tasks == old(tasks) && newTaskTitle == old(newTaskTitle) && newTaskDescription == old(newTaskDescription)
    {
      if !Granted(user, Add) {
        return;
      }
      if Trim(newTaskTitle) == "" || Trim(newTaskDescription) == "" {
        return;
      }
      var task := Task(newId, newTaskTitle, newTaskDescription, false, false, OwnerId(session.user));
      tasks := tasks + [task];
      newTaskDescription := "";
      newTaskTitle := "";
    }

    /** The new-task title input's change handler. */
    method SetNewTaskTitle(value: string)
      modifies this`newTaskTitle
      ensures newTaskTitle == value
    {
      newTaskTitle := value;
    }

    /** The new-task description input's change handler. */
    method SetNewTaskDescription(value: string)
      modifies this`newTaskDescription
      ensures newTaskDescription == value
    {
      newTaskDescription := value;
    }

    /** The edited-title input's change handler. */
    method SetEditedTitle(value: string)
      modifies this`editedTitle
      ensures editedTitle == value
    {
      editedTitle := value;
    }

    /** The edited-description input's change handler. */
    method SetEditedDescription(value: string)
      modifies this`editedDescription
      ensures editedDescription == value
    {
      editedDescription := value;
    }
  }
}

=== FILE: user_store.dfy ===
/**
 * The process-wide session store: the signed-in user and the authenticated
 * flag, overwritten by `setUser` and `logout`.
 */
module UserStore {
  import opened Wrappers
  import opened Entities

  /** A snapshot of the store's two fields. */
  datatype AuthState = AuthState(user: Option<User>, isAuthenticated: bool)
  {
    /** The store's invariant: authenticated exactly when a user is held. */
    predicate Consistent()
    {
      isAuthenticated <==> user.Some?
    }
  }

  /** The state the store is created in. */
  const Initial := AuthState(None, false)

  /** One call of a mutator. */
  datatype StoreAction = SetUserAction(u: User) | LogoutAction

  /** The state after one mutator call; both overwrite every field, so the prior state is irrelevant. */
  function Step(s: AuthState, a: StoreAction): (r: AuthState)
    ensures r.Consistent()
    ensures a.SetUserAction? ==> r.user == Some(a.u)
    ensures a.LogoutAction? ==> r == Initial
  {
    match a
    case SetUserAction(u) => AuthState(Some(u), true)
    case LogoutAction => AuthState(None, false)
  }

  /** The state after a series of mutator calls, applied left to right. */
  function Run(s: AuthState, actions: seq<StoreAction>): AuthState
    decreases |actions|
  {
    if actions == [] then s else Run(Step(s, actions[0]), actions[1..])
  }

  /** Any series of calls from a consistent state keeps the invariant. */
  lemma {:induction false} RunKeepsConsistent(s: AuthState, actions: seq<StoreAction>)
    requires s.Consistent()
    ensures Run(s, actions).Consistent()
    decreases |actions|
  {
    if actions != [] {
      RunKeepsConsistent(Step(s, actions[0]), actions[1..]);
    }
  }

  /** After a non-empty series of calls the state is decided by the last one alone. */
  lemma {:induction false} RunEndsWithLast(s: AuthState, actions: seq<StoreAction>)
    requires actions != []
    ensures Run(s, actions) == Step(s, actions[|actions| - 1])
    decreases |actions|
  {
    if |actions| > 1 {
      RunEndsWithLast(Step(s, actions[0]), actions[1..]);
    }
  }

  /** Logging out twice is logging out once; signing in then out returns to the initial state. */
  lemma LogoutIdempotent(s: AuthState, u: User)
    ensures Step(Step(s, LogoutAction), LogoutAction) == Step(s, LogoutAction)
    ensures Step(Step(s, SetUserAction(u)), LogoutAction) == Initial
  {
  }

  /** The store itself: two fields overwritten in place. */
  class AuthStore {
    var user: Option<User>
    var isAuthenticated: bool

    /** The current snapshot of the two fields. */
    function State(): AuthState
      reads this
    {
      AuthState(user, isAuthenticated)
    }

    ghost predicate Valid()
      reads this
    {
      State().Consistent()
    }

    /** The store starts signed out. */
    constructor ()
      ensures State() == Initial && Valid()
    {
      user := None;
      isAuthenticated := false;
    }

    /** `setUser(u)`: holds `u` and marks the session authenticated. */
    method SetUser(u: User)
      modifies this
      ensures State() == Step(old(State()), SetUserAction(u))
      ensures user == Some(u) && isAuthenticated && Valid()
    {
      user, isAuthenticated := Some(u), true;
    }

    /** `logout()`: drops the user and the authenticated flag, whatever the prior state. */
    method Logout()
      modifies this
      ensures State() == Step(old(State()), LogoutAction)
      ensures State() == Initial && Valid()
    {
      user, isAuthenticated := None, false;
    }
  }
}

=== FILE: user_table.dfy ===
/**
 * The user-management table an admin sees: the fetched non-admin users, the
 * status toggle and the role change. Each change is written to the API
 * first and applied to the local list only after the write succeeds.
 */
module UserTable {
  import opened Wrappers
  import opened Entities
  import opened Lists

  /** The roles the role selector offers (`'user' | 'manager'`). */
  type AssignableRole = r: string | r == UserRole || r == ManagerRole witness UserRole

  /** Selects the users whose id is `id`. */
  function HasId(id: string): User -> bool
  {
    (u: User) => u.id == id
  }

  /** The list the table shows after a fetch: every user except the admins, in the order fetched. */
  function NonAdmins(users: seq<User>): (r: seq<User>)
    ensures |r| <= |users|
    ensures |users| == 1 ==> r == if users[0].role != AdminRole then users else []
    ensures forall i :: 0 <= i < |r| ==> r[i] in users && r[i].role != AdminRole
    ensures forall i :: 0 <= i < |users| && users[i].role != AdminRole ==> users[i] in r
  {
    KeepWhere(users, (u: User) => u.role != AdminRole)
  }

  /** Fetching a concatenation keeps each part's non-admins, in order. */
  lemma NonAdminsAppend(a: seq<User>, b: seq<User>)
    ensures NonAdmins(a + b) == NonAdmins(a) + NonAdmins(b)
  {
    KeepWhereAppend(a, b, (u: User) => u.role != AdminRole);
  }

  /** The status a toggle writes: `'active'` becomes `'inactive'`, anything else becomes `'active'`. */
  function NextStatus(status: string): (r: string)
    ensures r != status
    ensures r == InactiveStatus <==> status == ActiveStatus
    ensures r == ActiveStatus <==> status != ActiveStatus
  {
    if status == ActiveStatus then InactiveStatus else ActiveStatus
  }

  /** Toggling an active or inactive status twice restores it. */
  lemma NextStatusTwice(status: string)
    requires status == ActiveStatus || status == InactiveStatus
    ensures NextStatus(NextStatus(status)) == status
  {
  }

  /** The list with `status` written into every user whose id is `id`; nothing else differs. */
  function WithStatus(users: seq<User>, id: string, status: string): (r: seq<User>)
    ensures |r| == |users|
    ensures forall i :: 0 <= i < |users| ==> r[i].(status := users[i].status) == users[i]
    ensures forall i :: 0 <= i < |users| ==> r[i].status == if users[i].id == id then status else users[i].status
  {
    MapWhere(users, HasId(id), (u: User) => u.(status := status))
  }

  /** The list with `role` written into every user whose id is `id`; nothing else differs. */
  function WithRole(users: seq<User>, id: string, role: string): (r: seq<User>)
    ensures |r| == |users|
    ensures forall i :: 0 <= i < |users| ==> r[i].(role := users[i].role) == users[i]
    ensures forall i :: 0 <= i < |users| ==> r[i].role == if users[i].id == id then role else users[i].role
  {
    MapWhere(users, HasId(id), (u: User) => u.(role := role))
  }

  /**
   * The list after a successful status toggle: the status following that of
   * the first user with id `id` is written into every user with that id; the
   * list is unchanged when there is none.
   */
  function StatusToggled(users: seq<User>, id: string): (r: seq<User>)
    ensures |r| == |users|
    ensures forall i :: 0 <= i < |users| ==> r[i].(status := users[i].status) == users[i]
    ensures forall i :: 0 <= i < |users| && users[i].id != id ==> r[i] == users[i]
    ensures FindWhere(users, HasId(id)).None? ==> r == users
    ensures FindWhere(users, HasId(id)).Some? ==>
              forall i :: 0 <= i < |users| && users[i].id == id ==>
                r[i].status == NextStatus(FindWhere(users, HasId(id)).value.status)
  {
    match FindWhere(users, HasId(id))
    case None => users
    case Some(u) => WithStatus(users, id, NextStatus(u.status))
  }

  /** With unique ids, toggling the same active or inactive user twice restores the list. */
  lemma StatusToggledTwice(users: seq<User>, id: string)
    requires UniqueIds(users)
    requires forall i :: 0 <= i < |users| && users[i].id == id ==>
               users[i].status == ActiveStatus || users[i].status == InactiveStatus
    ensures StatusToggled(StatusToggled(users, id), id) == users
  {
  }

  /** The table's state: the list it shows. */
  class UserTable {
    var users: seq<User>

    /** The table mounts with an empty list. */
    constructor ()
      ensures users == []
    {
      users := [];
    }

    /** `fetchUsers`: on success the list becomes the fetched non-admins; on failure it stays. */
    method FetchUsers(response: Response<seq<User>>)
      modifies this
      ensures response.Ok? ==> users == NonAdmins(response.data)
      ensures response.Failed? ==> users == old(users)
    {
      if response.Ok? {
        users := NonAdmins(response.data);
      }
    }

    /**
     * `toggleStatus(id)`: with no user of that id, no request and no change;
     * otherwise the PATCH carries the next status, and only when it succeeds
     * is the list updated.
     */
    method ToggleStatus(id: string, patchOk: bool) returns (request: Option<UserPatch>)
      modifies this
      ensures FindWhere(old(users), HasId(id)).None? ==> request == None
      ensures FindWhere(old(users), HasId(id)).Some? ==>
                request == Some(UserPatch(id, StatusField(NextStatus(FindWhere(old(users), HasId(id)).value.status))))
      ensures users == if request.Some? && patchOk then StatusToggled(old(users), id) else old(users)
    {
      var found := FindWhere(users, HasId(id));
      if found.None? {
        return None;
      }
      var newStatus := NextStatus(found.value.status);
      request := Some(UserPatch(id, StatusField(newStatus)));
      if patchOk {
        users := WithStatus(users, id, newStatus);
      }
    }

    /**
     * `changeRole(id, newRole)`: the PATCH is issued whether or not the id is
     * listed; only when it succeeds is the role written into the matching users.
     */
    method ChangeRole(id: string, newRole: AssignableRole, patchOk: bool) returns (request: Option<UserPatch>)
      modifies this
      ensures request == Some(UserPatch(id, RoleField(newRole)))
      ensures users == if patchOk then WithRole(old(users), id, newRole) else old(users)
    {
      request := Some(UserPatch(id, RoleField(newRole)));
      if patchOk {
        users := WithRole(users, id, newRole);
      }
    }
  }
}

=== FILE: with_auth.dfy ===
/**
 * The access guard wrapped around every dashboard page: from the store's two
 * fields and the page's allowed roles it decides which redirects the effect
 * pushes and whether the page renders or renders nothing.
 */
module WithAuth {
  import opened Wrappers
  import opened Entities
  import opened UserStore
  import opened Routes

  /** What one render of the guard does: the navigations its effect pushes, in order, and whether the page appears. */
  datatype GuardDecision = GuardDecision(redirects: seq<string>, renders: bool)

  /**
   * The effect pushes `/login` when not authenticated, then `/unauthorized`
   * when a user is held whose role is not allowed; the wrapper renders
   * nothing under the same two conditions and the page otherwise.
   */
  function Guard(isAuthenticated: bool, user: Option<User>, allowedRoles: seq<string>): (d: GuardDecision)
    ensures !isAuthenticated ==> !d.renders && |d.redirects| >= 1 && d.redirects[0] == LoginRoute
    ensures user.Some? && user.value.role !in allowedRoles ==> !d.renders && UnauthorizedRoute in d.redirects
    ensures isAuthenticated && user.Some? && user.value.role in allowedRoles ==> d.renders && d.redirects == []
    ensures d.renders <==> d.redirects == []
    ensures LoginRoute in d.redirects <==> !isAuthenticated
    ensures UnauthorizedRoute in d.redirects <==> user.Some? && user.value.role !in allowedRoles
    ensures forall i :: 0 <= i < |d.redirects| ==> d.redirects[i] in {LoginRoute, UnauthorizedRoute}
    ensures forall i, j :: 0 <= i < j < |d.redirects| ==> d.redirects[i] != d.redirects[j]
  {
    var toLogin := if !isAuthenticated then [LoginRoute] else [];
    var toUnauthorized := if user.Some? && user.value.role !in allowedRoles then [UnauthorizedRoute] else [];
    var hidden := !isAuthenticated || (user.Some? && user.value.role !in allowedRoles);
    GuardDecision(toLogin + toUnauthorized, !hidden)
  }

  /** The guard read from a store snapshot. */
  function GuardState(s: AuthState, allowedRoles: seq<string>): GuardDecision
  {
    Guard(s.isAuthenticated, s.user, allowedRoles)
  }

  /**
   * Under the store's invariant the page renders exactly when a user is
   * signed in and that user's role is allowed, and the two redirects never
   * fire together.
   */
  lemma RendersOnlyAllowedRoles(s: AuthState, allowedRoles: seq<string>)
    requires s.Consistent()
    ensures GuardState(s, allowedRoles).renders <==> s.user.Some? && s.user.value.role in allowedRoles
    ensures |GuardState(s, allowedRoles).redirects| <= 1
  {
  }

  /** The guard read from a live store that keeps its invariant renders only for a held, allowed role. */
  lemma StoreGuard(store: AuthStore, allowedRoles: seq<string>)
    requires store.Valid()
    ensures GuardState(store.State(), allowedRoles).renders <==>
              store.user.Some? && store.user.value.role in allowedRoles
  {
  }

  /**
   * The guard leans on the store's invariant: a state that claims to be
   * authenticated but holds no user would render the page.
   */
  lemma AuthenticatedWithoutUserRenders(allowedRoles: seq<string>)
    ensures Guard(true, None, allowedRoles).renders
  {
  }

  /** Signed out, every dashboard page sends the visitor to the login view and shows nothing. */
  lemma SignedOutSeesLogin(route: string)
    requires PageRoles(route).Some?
    ensures GuardState(Initial, PageRoles(route).value) == GuardDecision([LoginRoute], false)
  {
  }
}

=== FILE: wrappers.dfy ===
/** Optional values and the outcome of a remote call. */
module Wrappers {

  /** A value that may be absent: the model of a nullable or undefined field. */
  datatype Option<+T> = None | Some(value: T)

  /**
   * What a call to the REST API produced: the decoded response body, or a
   * failure (network error, non-2xx status) that the caller's `catch` sees.
   */
  datatype Response<+T> = Ok(data: T) | Failed
}
